=== FILE: README.md ===
# FloorPlan schema discovery, in Dafny

A model of the schema-discovery and naming logic of FloorPlan's Gradle task
(`FloorPlanTask`). `FloorPlanTask` is given a list of Room schema-export roots. Every
immediate subdirectory of a root is one database. In each database directory it
picks the latest `<version>.json` snapshot. For each picked snapshot it builds a
`FloorPlanInput` and an `Output`: the DBML format with the two render flags, and
a destination. The destination is a disk file named
`<outputDir><separator><database>_<version>.dbml`.

The file system is an immutable tree: `FileTree.Node` is `File(name)` or
`Dir(name, listing)`. A listing of `None` stands for a directory whose
`listFiles()` returns null. Paths are `FileTree.Path(absolute, segments)`. The
model relies on the following library behaviour, written out:

- `File.extension` is the text after the last `.`, or `""` when there is none.
- `File.nameWithoutExtension` is the text before the last `.`, or the whole name.
- `File.parentFile` follows `java.io.File`. A relative one-component path has no
  parent. The parent of an absolute one-component path is the root, named `""`.
- `String.toInt()` is `Integer.parseInt`. It takes an optional `+` or `-`, then
  one or more digits, and the value must fit in 32 bits. Anything else is a
  `NumberFormatException`, modelled as `None`.
- `maxBy` is the nullable `Iterable.maxBy` of the Kotlin standard library
  before version 1.7, which the `?: throw` at line 89 relies on; its code is
  that of the later `maxByOrNull`. (From 1.7 on, `maxBy` is non-null and throws
  `NoSuchElementException` on an empty list.) It returns null for an empty list.
  For a one-element list it returns that element without calling the selector. Otherwise it calls the
  selector on every element in order, lets the first exception propagate, and
  replaces the current best only on a strictly larger key, so the first maximum
  wins (`MaxSelection.MaxBy`).

Exceptions are `Results.Result` values carrying a `SchemaErrors.SchemaError`:
`NoSchemasInDirectory`, `NumberFormat` or `NotInDirectory`.

Modules: `Results`, `Names`, `IntParse`, `FileTree`, `SchemaErrors`,
`MaxSelection`, `VersionSelect`, `Discovery`, `OutputNaming`, `Export`, and
`Scenarios` (worked examples).

Behaviour of `FloorPlanTask` worth noting:

- A non-numeric base name such as `latest.json` is not skipped. With two or
  more `json` entries it fails the selection. A lone `latest.json` is selected,
  because `maxBy` never parses a single element.
- `createOutputPath` always returns a path or throws. So `generateFloorPlan`
  always picks `Disk`, and `StandardOut` is never chosen by `FloorPlanTask`.
  `Export.DestinationFor` still models the `null` test as written.
- Two roots holding a database of the same name produce the same output path
  (`Scenarios.SameDatabaseNameCollides`).
- `listJsonFiles` filters on the extension only, so a directory named `x.json`
  is a candidate too.

## Model

| member | source | states |
|---|---|---|
| Names.Extension | floorplan-gradle-plugin/src/main/kotlin/com/zynger/floorplan/FloorPlanTask.kt:100 | `File.extension`: the text after the last dot, never containing a dot, or "" without a dot; stated by `Names.SplitAtLastDot` and `Names.JoinThenSplit` |
| Names.NameWithoutExtension | floorplan-gradle-plugin/src/main/kotlin/com/zynger/floorplan/FloorPlanTask.kt:88 | `File.nameWithoutExtension`: the text before the last dot, which with a dot and the extension rebuilds the name, or the whole name without a dot; stated by `Names.SplitAtLastDot` and `Names.JoinThenSplit` |
| Names.SplitAtLastDot | floorplan-gradle-plugin/src/main/kotlin/com/zynger/floorplan/FloorPlanTask.kt:88 | the base name, a dot and the extension give back the name, and the extension holds no dot; a name without a dot is its own base name and has extension "" |
| Names.JoinThenSplit | floorplan-gradle-plugin/src/main/kotlin/com/zynger/floorplan/FloorPlanTask.kt:100 | for a dot-free extension, `extension` and `nameWithoutExtension` of `base.ext` return `ext` and `base` |
| IntParse.ToInt | floorplan-gradle-plugin/src/main/kotlin/com/zynger/floorplan/FloorPlanTask.kt:88 | a parsed value lies in the 32-bit range and comes from a non-empty all-digit text after the sign; exactly which texts parse, and to what, is stated by `IntParse.ToIntAccepts`, `IntParse.ToIntRejects` and `IntParse.ParseShowRoundTrip` |
| IntParse.ParseShowRoundTrip | floorplan-gradle-plugin/src/main/kotlin/com/zynger/floorplan/FloorPlanTask.kt:88 | every 32-bit integer written in decimal is read back by `toInt` as itself |
| IntParse.ToIntAccepts | floorplan-gradle-plugin/src/main/kotlin/com/zynger/floorplan/FloorPlanTask.kt:88 | a digit string, bare or with `+` or `-`, parses to its value when that value fits in 32 bits |
| IntParse.ToIntRejects | floorplan-gradle-plugin/src/main/kotlin/com/zynger/floorplan/FloorPlanTask.kt:88 | `toInt` fails on the empty text, a bare sign, any non-digit after the sign, and a signed or unsigned value outside the 32-bit range |
| FileTree.SubDirectories | floorplan-gradle-plugin/src/main/kotlin/com/zynger/floorplan/FloorPlanTask.kt:92-96 | `subDirectories`: the directory entries of a readable directory, at their child paths, in listing order; stated by `FileTree.SubDirectoriesSpec`, `FileTree.AllDirectoriesListed` and `Discovery.PlainFilesAreNotDatabases` |
| FileTree.SubDirectoriesSpec | floorplan-gradle-plugin/src/main/kotlin/com/zynger/floorplan/FloorPlanTask.kt:92-96 | every yielded entry is a directory entry of the readable directory's listing, at its child path; every directory entry is yielded; a plain file or a null listing yields nothing |
| FileTree.AllDirectoriesListed | floorplan-gradle-plugin/src/main/kotlin/com/zynger/floorplan/FloorPlanTask.kt:92-96 | a listing of directories only is yielded whole, in listing order, each entry once |
| FileTree.ParentName | floorplan-gradle-plugin/src/main/kotlin/com/zynger/floorplan/FloorPlanTask.kt:67 | `parentFile.name`, absent where `parentFile` is null; stated by `FileTree.ChildParentName` |
| FileTree.ChildParentName | floorplan-gradle-plugin/src/main/kotlin/com/zynger/floorplan/FloorPlanTask.kt:67 | the parent name of `File(parent, name)` is the name of `parent`, and only a child of the empty relative path has no parent |
| FileTree.ListJsonFiles | floorplan-gradle-plugin/src/main/kotlin/com/zynger/floorplan/FloorPlanTask.kt:98-102 | `listJsonFiles`: the child paths of the entries of a readable directory whose extension is `json`, whatever their kind, in listing order; stated by `FileTree.ListJsonFilesSound`, `FileTree.ListJsonFilesComplete`, `FileTree.AllJsonListed` and `FileTree.NonJsonEntriesNotListed` |
| FileTree.ListJsonFilesSound | floorplan-gradle-plugin/src/main/kotlin/com/zynger/floorplan/FloorPlanTask.kt:98-102 | every yielded path is the child path of an entry of the readable directory's listing whose extension is `json`; a plain file or a null listing yields nothing |
| FileTree.AllJsonListed | floorplan-gradle-plugin/src/main/kotlin/com/zynger/floorplan/FloorPlanTask.kt:98-102 | a listing of `json` entries only yields the child path of every entry, in listing order, each once |
| FileTree.ListJsonFilesComplete | floorplan-gradle-plugin/src/main/kotlin/com/zynger/floorplan/FloorPlanTask.kt:98-102 | every child of a readable directory whose extension is `json` is listed, whatever its kind |
| FileTree.NonJsonEntriesNotListed | floorplan-gradle-plugin/src/main/kotlin/com/zynger/floorplan/FloorPlanTask.kt:98-102 | entries without the `json` extension, inserted anywhere in a readable directory's listing, leave the listed paths unchanged, in content, order and number; with `FileTree.AllJsonListed` this fixes the result for any mixed listing |
| FileTree.FilterIgnoresRejected | floorplan-gradle-plugin/src/main/kotlin/com/zynger/floorplan/FloorPlanTask.kt:99-100 | entries the listing filter rejects, inserted anywhere, do not change the filtered listing |
| MaxSelection.MaxBy | floorplan-gradle-plugin/src/main/kotlin/com/zynger/floorplan/FloorPlanTask.kt:87-89 | null exactly for an empty list; a selected element is in the list; a reported selector failure names an element of the list that fails |
| MaxSelection.SelectsFirstMaximum | floorplan-gradle-plugin/src/main/kotlin/com/zynger/floorplan/FloorPlanTask.kt:87-88 | when every key parses, the result is the element whose key is at least every other key and strictly above every earlier key |
| MaxSelection.FirstMaximumIsSelected | floorplan-gradle-plugin/src/main/kotlin/com/zynger/floorplan/FloorPlanTask.kt:87-88 | when every key parses and an element has the largest key with no earlier element tying it, that element is the one selected |
| MaxSelection.FailsAtFirstUnkeyed | floorplan-gradle-plugin/src/main/kotlin/com/zynger/floorplan/FloorPlanTask.kt:87-88 | with two or more elements, a key that does not parse fails the call, on the first such element in order |
| MaxSelection.FailsIffSomeKeyFails | floorplan-gradle-plugin/src/main/kotlin/com/zynger/floorplan/FloorPlanTask.kt:87-88 | the call fails on a key exactly when there are two or more elements and one key does not parse |
| MaxSelection.LoneElementIsNotKeyed | floorplan-gradle-plugin/src/main/kotlin/com/zynger/floorplan/FloorPlanTask.kt:87 | a one-element list yields its element without its key being parsed |
| VersionSelect.FindLatestSchemaVersion | floorplan-gradle-plugin/src/main/kotlin/com/zynger/floorplan/FloorPlanTask.kt:85-90 | `findLatestSchemaVersion`: the `json` entry with the largest integer base name, first listed on a tie, or "no schemas", or a number-format failure; stated by `VersionSelect.FindLatestSchemaVersionSpec`, `VersionSelect.LatestIsNewest`, `VersionSelect.NonIntegerNameFails` and `VersionSelect.LatestIsJsonChild` |
| VersionSelect.FindLatestSchemaVersionSpec | floorplan-gradle-plugin/src/main/kotlin/com/zynger/floorplan/FloorPlanTask.kt:85-90 | the result is one of the directory's `json` entries; "no schemas" exactly when there are none; the only failures are "no schemas" and a number-format failure, which names a `json` entry whose base name does not parse |
| VersionSelect.LatestIsJsonChild | floorplan-gradle-plugin/src/main/kotlin/com/zynger/floorplan/FloorPlanTask.kt:85-88 | the selected schema is the child path of a `json` entry of the database directory's listing |
| VersionSelect.UnreadableDirectoryHasNoSchemas | floorplan-gradle-plugin/src/main/kotlin/com/zynger/floorplan/FloorPlanTask.kt:86-101 | a null listing gives the "No schemas in this directory" error for that directory |
| VersionSelect.LatestIsNewest | floorplan-gradle-plugin/src/main/kotlin/com/zynger/floorplan/FloorPlanTask.kt:85-88 | when all `json` base names parse, the result is the first `json` entry in listing order carrying the largest version |
| VersionSelect.NonIntegerNameFails | floorplan-gradle-plugin/src/main/kotlin/com/zynger/floorplan/FloorPlanTask.kt:87-88 | with two or more `json` entries, a non-integer base name fails the selection, naming the first one; a single entry is returned as is |
| VersionSelect.NonJsonEntriesIgnored | floorplan-gradle-plugin/src/main/kotlin/com/zynger/floorplan/FloorPlanTask.kt:98-102 | adding or removing non-`json` entries anywhere in a listing never changes the outcome |
| Discovery.Collect | floorplan-gradle-plugin/src/main/kotlin/com/zynger/floorplan/FloorPlanTask.kt:79-81 | mapping a failing function gives every value in order, or the first failure, and succeeds exactly when every call does |
| Discovery.FindSchemas | floorplan-gradle-plugin/src/main/kotlin/com/zynger/floorplan/FloorPlanTask.kt:74-83 | `findSchemas`: the latest schema of every database directory, roots in order and then subdirectories, or the first failure; stated by `Discovery.FindSchemasFlattens`, `Discovery.FindSchemasSucceedsIff`, `Discovery.FindSchemasOnePerDirectory`, `Discovery.FindSchemasCount` and `Discovery.FindSchemasFirstFailure` |
| Discovery.FindSchemasFlattens | floorplan-gradle-plugin/src/main/kotlin/com/zynger/floorplan/FloorPlanTask.kt:74-83 | mapping per root then flattening equals selecting over all database directories in root then listing order |
| Discovery.FindSchemasSucceedsIff | floorplan-gradle-plugin/src/main/kotlin/com/zynger/floorplan/FloorPlanTask.kt:74-83 | the call succeeds exactly when every database directory of every root yields a schema; one failing directory fails it all |
| Discovery.FindSchemasOnePerDirectory | floorplan-gradle-plugin/src/main/kotlin/com/zynger/floorplan/FloorPlanTask.kt:74-83 | on success, the schema at each position is the one selected in the database directory at that position, roots first and then subdirectories |
| Discovery.FindSchemasCount | floorplan-gradle-plugin/src/main/kotlin/com/zynger/floorplan/FloorPlanTask.kt:74-83 | on success, there are exactly as many schemas as database directories |
| Discovery.DatabaseDirectoriesCount | floorplan-gradle-plugin/src/main/kotlin/com/zynger/floorplan/FloorPlanTask.kt:77-78 | the database directories visited number the sum, over the roots, of each root's subdirectory count |
| Discovery.FindSchemasFirstFailure | floorplan-gradle-plugin/src/main/kotlin/com/zynger/floorplan/FloorPlanTask.kt:74-83 | on failure, the error is that of the first failing database directory in that order |
| Discovery.FindSchemasAppend | floorplan-gradle-plugin/src/main/kotlin/com/zynger/floorplan/FloorPlanTask.kt:77-82 | the schemas of concatenated root lists are the concatenated schemas, with the earlier failure first |
| Discovery.NoDeduplicationAcrossRoots | floorplan-gradle-plugin/src/main/kotlin/com/zynger/floorplan/FloorPlanTask.kt:77-82 | listing the same roots twice yields every schema twice |
| Discovery.UnlistableRootContributesNothing | floorplan-gradle-plugin/src/main/kotlin/com/zynger/floorplan/FloorPlanTask.kt:92-96 | a root that is a plain file or has a null listing adds nothing, wherever it appears |
| Discovery.PlainFilesAreNotDatabases | floorplan-gradle-plugin/src/main/kotlin/com/zynger/floorplan/FloorPlanTask.kt:92-96 | plain files among a root's entries never change its subdirectories |
| Discovery.DiscoveredSchemasHaveParents | floorplan-gradle-plugin/src/main/kotlin/com/zynger/floorplan/FloorPlanTask.kt:77-80 | every discovered schema is one of the `json` entries listed in the database directory it came from, and its parent name is that directory's name |
| OutputNaming.OutputFileName | floorplan-gradle-plugin/src/main/kotlin/com/zynger/floorplan/FloorPlanTask.kt:70 | `outFileName`, `<parentName>_<baseName>.dbml`; that its extension is `dbml` and its base `<parentName>_<baseName>` is stated by `OutputNaming.OutputFileNameSplits` |
| OutputNaming.OutputFileNameSplits | floorplan-gradle-plugin/src/main/kotlin/com/zynger/floorplan/FloorPlanTask.kt:70 | the output file name has extension `dbml` and base `<parentName>_<baseName>` |
| OutputNaming.CreateOutputPath | floorplan-gradle-plugin/src/main/kotlin/com/zynger/floorplan/FloorPlanTask.kt:66-72 | fails exactly when the file has no parent; otherwise it is the output directory, the separator, then a name with extension `dbml` whose base is `<parentName>_<baseName>` |
| Export.DestinationFor | floorplan-gradle-plugin/src/main/kotlin/com/zynger/floorplan/FloorPlanTask.kt:57 | standard output exactly when the output path is null; otherwise the disk file at that path |
| Export.InputFor | floorplan-gradle-plugin/src/main/kotlin/com/zynger/floorplan/FloorPlanTask.kt:37-42 | the `FloorPlanInput` of one schema: its path, its output path and both flags when the file has a parent (`Export.RenderCallForSpec`), and the `createOutputPath` failure `NotInDirectory` when it has none (`Export.RenderCallForFails`) |
| Export.OutputFor | floorplan-gradle-plugin/src/main/kotlin/com/zynger/floorplan/FloorPlanTask.kt:50-58 | the `Output` given to `FloorPlan.render`: DBML with the input's two flags, to standard output exactly when the output path is null and otherwise to disk at it; stated by `Export.RenderCallForSpec` and `Export.DestinationFor` |
| Export.RenderCallFor | floorplan-gradle-plugin/src/main/kotlin/com/zynger/floorplan/FloorPlanTask.kt:36-59 | the arguments of one `FloorPlan.render` call, or the exception raised while building the input; stated by `Export.RenderCallForSpec` and `Export.RenderCallForFails` |
| Export.RenderCallForSpec | floorplan-gradle-plugin/src/main/kotlin/com/zynger/floorplan/FloorPlanTask.kt:37-57 | for a file inside a directory, the input records its path and output path, the destination is that disk path, and both flags are copied unchanged |
| Export.RenderCallForFails | floorplan-gradle-plugin/src/main/kotlin/com/zynger/floorplan/FloorPlanTask.kt:66-68 | a schema file without a parent directory gets neither an input nor a render call, only the `NotInDirectory` failure naming that file |
| Export.GenerateFloorPlan | floorplan-gradle-plugin/src/main/kotlin/com/zynger/floorplan/FloorPlanTask.kt:33-60 | `generateFloorPlan`: one render call per discovered schema, in order, or the discovery failure; stated by `Export.GenerateFloorPlanFails` and `Export.GenerateFloorPlanCalls` |
| Export.GenerateFloorPlanFails | floorplan-gradle-plugin/src/main/kotlin/com/zynger/floorplan/FloorPlanTask.kt:33-60 | fails exactly when discovery fails, with the same error |
| Export.GenerateFloorPlanCalls | floorplan-gradle-plugin/src/main/kotlin/com/zynger/floorplan/FloorPlanTask.kt:33-60 | when discovery succeeds, one render call per schema, in order, each reading that schema and writing to disk at `<outputDir><sep><database>_<version>.dbml`, with the flags as configured; never standard output |
| Scenarios.NumericallyLatestVersionWins | floorplan-gradle-plugin/src/main/kotlin/com/zynger/floorplan/FloorPlanTask.kt:85-88 | among versions 2, 10, 1 and 5, version 10 is selected |
| Scenarios.TieGoesToFirstListed | floorplan-gradle-plugin/src/main/kotlin/com/zynger/floorplan/FloorPlanTask.kt:87-88 | "07" and "7" are the same version, and the first listed wins |
| Scenarios.NonNumericNameIsAnError | floorplan-gradle-plugin/src/main/kotlin/com/zynger/floorplan/FloorPlanTask.kt:88 | `latest.json` beside `1.json` fails with a number-format error for "latest" |
| Scenarios.LoneNonNumericNameIsSelected | floorplan-gradle-plugin/src/main/kotlin/com/zynger/floorplan/FloorPlanTask.kt:87 | a lone `latest.json` is selected |
| Scenarios.OutputPathExample | floorplan-gradle-plugin/src/main/kotlin/com/zynger/floorplan/FloorPlanTask.kt:66-72 | `/roots/appdb/3.json` with output directory `/out` maps to `/out/appdb_3.dbml` |
| Scenarios.SameDatabaseNameCollides | floorplan-gradle-plugin/src/main/kotlin/com/zynger/floorplan/FloorPlanTask.kt:70-71 | the same database and version under two roots map to the same output path |
| Scenarios.OrphanSchemaFileRejected | floorplan-gradle-plugin/src/main/kotlin/com/zynger/floorplan/FloorPlanTask.kt:67-68 | a one-component relative schema path is rejected as not being in a directory |

## Left out

- `FloorPlanPlugin.kt` as a whole. Extension creation, task registration and reading the schema location from annotation-processor arguments are build-tool glue.
- `RoomConsumer.read` and `FloorPlan.render`. Their sources are not part of this model. `Export.RenderCall` records what each render call receives; parse and render failures are not modelled.
- Real file-system access. The tree is a value, and the order of a listing is whatever order the tree gives. The platform separator is a parameter.
- `absolutePath` resolution. `OutputNaming.PathString` joins a path's components, and `outputDir` is taken as already absolute. Relative paths are not resolved against a working directory.
- The order of side effects in `forEach`. A failure for a later schema would come after earlier render calls. `Export.GenerateFloorPlan` returns only the failure. This cannot arise for discovered schemas (`Discovery.DiscoveredSchemasHaveParents`).
- Non-ASCII decimal digits, which `Integer.parseInt` also accepts. `IntParse.ToInt` accepts ASCII `0`-`9` only.
- Gradle annotations and `lateinit` initialisation.

=== FILE: discovery.dfy ===
/** `findSchemas` and `subDirectories`: one latest schema per database directory,
    over the immediate subdirectories of every schema root, in root order and
    then listing order. */
module Discovery {
  import opened Results
  import opened Names
  import opened FileTree
  import opened SchemaErrors
  import opened VersionSelect

  /** Kotlin's eager `map` with a function that may throw: every value in order,
      or the first failure met. */
  function Collect<T, E>(rs: seq<Result<T, E>>): (r: Result<seq<T>, E>)
    ensures r.Ok? <==> forall i :: 0 <= i < |rs| ==> rs[i].Ok?
    ensures r.Ok? ==> |r.value| == |rs| && (forall i :: 0 <= i < |rs| ==> rs[i] == Ok(r.value[i]))
    ensures r.Err? ==> exists i :: (0 <= i < |rs| && rs[i] == Err(r.error) && forall j :: 0 <= j < i ==> rs[j].Ok?)
  {
    if |rs| == 0 then Ok([])
    else
      match rs[0]
      case Err(e) => Err(e)
      case Ok(x) =>
        match Collect(rs[1..])
        case Err(e) =>
          assert forall j :: 1 <= j < |rs| ==> rs[1..][j - 1] == rs[j];
          Err(e)
        case Ok(xs) => Ok([x] + xs)
  }

  /** Concatenation of two results, where the left failure is raised first. */
  function Concat<T, E>(left: Result<seq<T>, E>, right: Result<seq<T>, E>): (r: Result<seq<T>, E>)
    ensures r.Ok? <==> left.Ok? && right.Ok?
    ensures r.Ok? ==> r.value == left.value + right.value
    ensures r.Err? ==> r.error == (if left.Err? then left.error else right.error)
  {
    match left
    case Err(e) => Err(e)
    case Ok(xs) =>
      match right
      case Err(e) => Err(e)
      case Ok(ys) => Ok(xs + ys)
  }

  lemma {:induction false} CollectAppend<T, E>(a: seq<Result<T, E>>, b: seq<Result<T, E>>)
    ensures Collect(a + b) == Concat(Collect(a), Collect(b))
  {
    if |a| == 0 {
      assert a + b == b;
      if Collect(b).Ok? {
        assert [] + Collect(b).value == Collect(b).value;
      }
    } else {
      assert (a + b)[0] == a[0];
      assert (a + b)[1..] == a[1..] + b;
      CollectAppend(a[1..], b);
      match a[0]
      case Err(e) =>
      case Ok(x) =>
        var tail, right := Collect(a[1..]), Collect(b);
        if tail.Ok? && right.Ok? {
          assert [x] + (tail.value + right.value) == ([x] + tail.value) + right.value;
        }
    }
  }

  /** `f` applied to each element, in order. */
  function MapSeq<A, B>(xs: seq<A>, f: A -> B): (r: seq<B>)
    ensures |r| == |xs|
    ensures forall i :: 0 <= i < |xs| ==> r[i] == f(xs[i])
  {
    seq(|xs|, i requires 0 <= i < |xs| => f(xs[i]))
  }

  lemma {:induction false} MapSeqAppend<A, B>(a: seq<A>, b: seq<A>, f: A -> B)
    ensures MapSeq(a + b, f) == MapSeq(a, f) + MapSeq(b, f)
  {
  }

  /** The selection made in each database directory, in order. */
  function Selections(dbDirs: seq<Located>): seq<Result<Path, SchemaError>>
  {
    MapSeq(dbDirs, FindLatestSchemaVersion)
  }

  /** `dbDirs.map { findLatestSchemaVersion(it) }`. */
  function SelectEach(dbDirs: seq<Located>): Result<seq<Path>, SchemaError>
  {
    Collect(Selections(dbDirs))
  }

  /** `roomSchemaDirs.map { it.subDirectories().map(::findLatestSchemaVersion) }.flatten()`. */
  function FindSchemas(roots: seq<Located>): Result<seq<Path>, SchemaError>
  {
    if |roots| == 0 then Ok([])
    else Concat(SelectEach(SubDirectories(roots[0])), FindSchemas(roots[1..]))
  }

  /** Every database directory the call visits: the subdirectories of each root,
      roots in order. */
  function DatabaseDirectories(roots: seq<Located>): seq<Located>
  {
    if |roots| == 0 then [] else SubDirectories(roots[0]) + DatabaseDirectories(roots[1..])
  }

  function Sum(xs: seq<nat>): nat
  {
    if |xs| == 0 then 0 else xs[0] + Sum(xs[1..])
  }

  /** The number of immediate subdirectories of each root, summed. */
  function SubDirectoryCount(roots: seq<Located>): nat
  {
    Sum(MapSeq<Located, nat>(roots, root => |SubDirectories(root)|))
  }

  lemma {:induction false} DatabaseDirectoriesAppend(a: seq<Located>, b: seq<Located>)
    ensures DatabaseDirectories(a + b) == DatabaseDirectories(a) + DatabaseDirectories(b)
  {
    if |a| == 0 {
      assert a + b == b;
    } else {
      assert (a + b)[0] == a[0];
      assert (a + b)[1..] == a[1..] + b;
      DatabaseDirectoriesAppend(a[1..], b);
      calc {
        DatabaseDirectories(a + b);
        SubDirectories(a[0]) + DatabaseDirectories(a[1..] + b);
        SubDirectories(a[0]) + (DatabaseDirectories(a[1..]) + DatabaseDirectories(b));
        (SubDirectories(a[0]) + DatabaseDirectories(a[1..])) + DatabaseDirectories(b);
      }
    }
  }

  /** The database directories of the roots number the roots' subdirectories. */
  lemma {:induction false} DatabaseDirectoriesCount(roots: seq<Located>)
    ensures |DatabaseDirectories(roots)| == SubDirectoryCount(roots)
  {
    if |roots| > 0 {
      var counts := MapSeq<Located, nat>(roots, root => |SubDirectories(root)|);
      assert counts[1..] == MapSeq<Located, nat>(roots[1..], root => |SubDirectories(root)|);
      DatabaseDirectoriesCount(roots[1..]);
    }
  }

  /** Mapping per root and then flattening is selecting over the flattened list
      of database directories: same files, same order, same first failure. */
  lemma {:induction false} FindSchemasFlattens(roots: seq<Located>)
    ensures FindSchemas(roots) == Collect(Selections(DatabaseDirectories(roots)))
  {
    if |roots| > 0 {
      FindSchemasFlattens(roots[1..]);
      var first := SubDirectories(roots[0]);
      var rest := DatabaseDirectories(roots[1..]);
      MapSeqAppend(first, rest, FindLatestSchemaVersion);
      CollectAppend(Selections(first), Selections(rest));
    }
  }

  /** `findSchemas` succeeds exactly when every database directory of every
      root yields a schema: any per-directory failure fails the whole call. */
  lemma {:induction false} FindSchemasSucceedsIff(roots: seq<Located>)
    ensures FindSchemas(roots).Ok? <==>
              forall i :: 0 <= i < |DatabaseDirectories(roots)| ==>
                FindLatestSchemaVersion(DatabaseDirectories(roots)[i]).Ok?
  {
    FindSchemasFlattens(roots);
    var dirs := DatabaseDirectories(roots);
    assert forall i :: 0 <= i < |dirs| ==> Selections(dirs)[i] == FindLatestSchemaVersion(dirs[i]);
  }

  /** On success, as many schemas as database directories. */
  lemma {:induction false} FindSchemasCount(roots: seq<Located>)
    requires FindSchemas(roots).Ok?
    ensures |FindSchemas(roots).value| == |DatabaseDirectories(roots)|
  {
    FindSchemasFlattens(roots);
  }

  /** On success, the schema at each position is the one selected in the
      database directory at that position, roots first, then subdirectories. */
  lemma {:induction false} FindSchemasOnePerDirectory(roots: seq<Located>)
    requires FindSchemas(roots).Ok?
    // Both bounds keep the index well-formed without the length equation of `FindSchemasCount` in scope.
    ensures forall i :: 0 <= i < |DatabaseDirectories(roots)| && i < |FindSchemas(roots).value| ==>
              && FindLatestSchemaVersion(DatabaseDirectories(roots)[i]).Ok?
              && FindLatestSchemaVersion(DatabaseDirectories(roots)[i]).value == FindSchemas(roots).value[i]
  {
    FindSchemasFlattens(roots);
    var dirs := DatabaseDirectories(roots);
    assert forall i :: 0 <= i < |dirs| ==> Selections(dirs)[i] == FindLatestSchemaVersion(dirs[i]);
  }

  /** On failure, the error is that of the first failing database directory. */
  lemma {:induction false} FindSchemasFirstFailure(roots: seq<Located>)
    requires FindSchemas(roots).Err?
    ensures exists i :: 0 <= i < |DatabaseDirectories(roots)| &&
              FindLatestSchemaVersion(DatabaseDirectories(roots)[i]) == Err(FindSchemas(roots).error) &&
              forall j :: 0 <= j < i ==> FindLatestSchemaVersion(DatabaseDirectories(roots)[j]).Ok?
  {
    FindSchemasFlattens(roots);
    var dirs := DatabaseDirectories(roots);
    assert forall i :: 0 <= i < |dirs| ==> Selections(dirs)[i] == FindLatestSchemaVersion(dirs[i]);
  }

  lemma {:induction false} ConcatAssociative<T, E>(x: Result<seq<T>, E>, y: Result<seq<T>, E>, z: Result<seq<T>, E>)
    ensures Concat(x, Concat(y, z)) == Concat(Concat(x, y), z)
  {
    if x.Ok? && y.Ok? && z.Ok? {
      assert x.value + (y.value + z.value) == (x.value + y.value) + z.value;
    }
  }

  lemma {:induction false} FindSchemasAppend(a: seq<Located>, b: seq<Located>)
    ensures FindSchemas(a + b) == Concat(FindSchemas(a), FindSchemas(b))
  {
    if |a| == 0 {
      assert a + b == b;
      if FindSchemas(b).Ok? {
        assert [] + FindSchemas(b).value == FindSchemas(b).value;
      }
    } else {
      assert (a + b)[0] == a[0];
      assert (a + b)[1..] == a[1..] + b;
      FindSchemasAppend(a[1..], b);
      ConcatAssociative(SelectEach(SubDirectories(a[0])), FindSchemas(a[1..]), FindSchemas(b));
    }
  }

  /** Nothing is de-duplicated: listing the same roots twice yields every schema twice. */
  lemma {:induction false} NoDeduplicationAcrossRoots(roots: seq<Located>)
    requires FindSchemas(roots).Ok?
    ensures FindSchemas(roots + roots) == Ok(FindSchemas(roots).value + FindSchemas(roots).value)
  {
    FindSchemasAppend(roots, roots);
  }

  /** A root that is a plain file, or a directory whose listing is null,
      contributes nothing wherever it appears. */
  lemma {:induction false} UnlistableRootContributesNothing(before: seq<Located>, root: Located, after: seq<Located>)
    requires root.node.File? || root.node.listing.None?
    ensures FindSchemas(before + [root] + after) == FindSchemas(before + after)
  {
    SubDirectoriesSpec(root);
    assert FindSchemas([root]) == Ok([]) by {
      assert [root][1..] == [];
      assert Selections([]) == [];
    }
    FindSchemasAppend(before + [root], after);
    FindSchemasAppend(before, [root]);
    FindSchemasAppend(before, after);
    var left := FindSchemas(before);
    if left.Ok? {
      assert left.value + [] == left.value;
    }
  }

  /** Plain files among a root's entries are never treated as database directories. */
  lemma {:induction false} PlainFilesAreNotDatabases(path: Path, name: string, before: seq<Node>, extra: seq<Node>, after: seq<Node>)
    requires forall i :: 0 <= i < |extra| ==> extra[i].File?
    ensures SubDirectories(Located(path, Dir(name, Some(before + extra + after))))
         == SubDirectories(Located(path, Dir(name, Some(before + after))))
  {
    var a, x, b := Locate(path, before), Locate(path, extra), Locate(path, after);
    LocateAppend(path, before + extra, after);
    LocateAppend(path, before, extra);
    LocateAppend(path, before, after);
    forall i | 0 <= i < |x|
      ensures !IsDirectory(x[i])
    {
      assert x[i].node == extra[i];
    }
    FilterIgnoresRejected(a, x, b, IsDirectory);
  }

  /** Each database directory is a named directory one level below its root. */
  lemma {:induction false} DatabaseDirectoriesAreChildren(roots: seq<Located>)
    ensures forall i :: 0 <= i < |DatabaseDirectories(roots)| ==>
              var d := DatabaseDirectories(roots)[i];
              d.node.Dir? && |d.path.segments| >= 1 && PathName(d.path) == d.node.name
  {
    if |roots| > 0 {
      SubDirectoriesSpec(roots[0]);
      DatabaseDirectoriesAreChildren(roots[1..]);
      var first := SubDirectories(roots[0]);
      forall i | 0 <= i < |first|
        ensures first[i] in first
      {
      }
    }
  }

  /** A schema selected in a named directory sits directly inside it. */
  lemma {:induction false} SchemaParentIsDatabase(d: Located, p: Path)
    requires |d.path.segments| >= 1 && PathName(d.path) == d.node.name
    requires FindLatestSchemaVersion(d) == Ok(p)
    ensures IsJson(PathName(p)) && ParentName(p) == Some(d.node.name)
  {
    LatestIsJsonChild(d);
    assert p == Child(d.path, PathName(p));
    assert p.segments[|p.segments| - 2] == d.path.segments[|d.path.segments| - 1];
  }

  /** Every discovered schema is one of the `json` files listed in the database
      directory it was selected from, and its parent name is that directory's
      name. */
  lemma {:induction false} DiscoveredSchemasHaveParents(roots: seq<Located>)
    requires FindSchemas(roots).Ok?
    // Both bounds keep the index well-formed without the length equation of `FindSchemasCount` in scope.
    ensures forall i :: 0 <= i < |FindSchemas(roots).value| && i < |DatabaseDirectories(roots)| ==>
              && FindSchemas(roots).value[i] in ListJsonFiles(DatabaseDirectories(roots)[i])
              && ParentName(FindSchemas(roots).value[i]) == Some(DatabaseDirectories(roots)[i].node.name)
  {
    FindSchemasFlattens(roots);
    DatabaseDirectoriesAreChildren(roots);
    var files := FindSchemas(roots).value;
    var dirs := DatabaseDirectories(roots);
    forall i | 0 <= i < |files|
      ensures files[i] in ListJsonFiles(dirs[i]) && ParentName(files[i]) == Some(dirs[i].node.name)
    {
      assert Selections(dirs)[i] == Ok(files[i]);
      FindLatestSchemaVersionSpec(dirs[i]);
      SchemaParentIsDatabase(dirs[i], files[i]);
    }
  }
}

=== FILE: errors.dfy ===
/** The exceptions `FloorPlanTask` can raise on the paths this model covers. */
module SchemaErrors {
  import opened FileTree

  datatype SchemaError =
    /** `IllegalArgumentException("No schemas in this directory: ...")`. */
    | NoSchemasInDirectory(dir: Path)
    /** `NumberFormatException` from `toInt()` on a schema's base name. */
    | NumberFormat(input: string)
    /** `IllegalArgumentException("Please ensure that the schema file ... is in a directory")`. */
    | NotInDirectory(file: Path)
}

=== FILE: export.dfy ===
/** `generateFloorPlan`: for every discovered schema, the `FloorPlanInput` `FloorPlanTask`
    builds and the `Output` (format and destination) it hands to the renderer.
    Reading the schema and rendering it are done by collaborators outside this
    model; a `RenderCall` records what they are given. */
module Export {
  import opened Results
  import opened FileTree
  import opened SchemaErrors
  import opened VersionSelect
  import opened Discovery
  import opened OutputNaming

  datatype DbmlConfiguration = DbmlConfiguration(creationSqlAsTableNote: bool, renderNullableFields: bool)

  datatype Format = Dbml(configuration: DbmlConfiguration)

  datatype Destination = StandardOut | Disk(path: string)

  datatype Output = Output(format: Format, destination: Destination)

  /** `FloorPlanTask.FloorPlanInput`; `outputPath` is Kotlin's `String?`. */
  datatype FloorPlanInput = FloorPlanInput(
    schemaPath: string,
    outputPath: Option<string>,
    creationSqlAsTableNote: bool,
    renderNullableFields: bool)

  /** The configured properties of `FloorPlanTask`, and the platform's `File.separator`. */
  datatype TaskSettings = TaskSettings(
    outputDir: string,
    separator: string,
    creationSqlAsTableNote: bool,
    renderNullableFields: bool)

  /** One `FloorPlan.render` call: the input it was built from and the output it is given. */
  datatype RenderCall = RenderCall(input: FloorPlanInput, output: Output)

  /** The destination choice of `generateFloorPlan`: standard output exactly when
      there is no output path, the disk file at that path otherwise. */
  function DestinationFor(outputPath: Option<string>): (d: Destination)
    ensures d.StandardOut? <==> outputPath.None?
    ensures d.Disk? ==> outputPath == Some(d.path)
  {
    if outputPath.None? then StandardOut else Disk(outputPath.value)
  }

  /** The `Output` handed to `FloorPlan.render`: DBML with the input's two flags,
      to the destination its output path selects. */
  function OutputFor(input: FloorPlanInput): Output
  {
    Output(Dbml(DbmlConfiguration(input.creationSqlAsTableNote, input.renderNullableFields)),
           DestinationFor(input.outputPath))
  }

  /** The `FloorPlanInput` built for one schema file. */
  function InputFor(file: Path, settings: TaskSettings): Result<FloorPlanInput, SchemaError>
  {
    match CreateOutputPath(file, settings.outputDir, settings.separator)
    case Err(e) => Err(e)
    case Ok(outputPath) =>
      Ok(FloorPlanInput(PathString(file, settings.separator), Some(outputPath),
                        settings.creationSqlAsTableNote, settings.renderNullableFields))
  }

  /** The `FloorPlan.render` call made for one schema file, or the exception
      raised while building its input. */
  function RenderCallFor(file: Path, settings: TaskSettings): Result<RenderCall, SchemaError>
  {
    match InputFor(file, settings)
    case Err(e) => Err(e)
    case Ok(input) => Ok(RenderCall(input, OutputFor(input)))
  }

  /** The render calls of `generateFloorPlan`, in schema order, or the first exception. */
  function GenerateFloorPlan(roots: seq<Located>, settings: TaskSettings): Result<seq<RenderCall>, SchemaError>
  {
    match FindSchemas(roots)
    case Err(e) => Err(e)
    case Ok(files) =>
      Collect(MapSeq(files, file => RenderCallFor(file, settings)))
  }

  /** The render call for a file inside a directory: its schema path, a disk
      destination at the computed output path, and both flags copied unchanged
      into the input and into the DBML configuration. */
  lemma {:induction false} RenderCallForSpec(file: Path, settings: TaskSettings)
    requires ParentName(file).Some?
    ensures RenderCallFor(file, settings).Ok?
    ensures var call := RenderCallFor(file, settings).value;
            var outputPath := CreateOutputPath(file, settings.outputDir, settings.separator).value;
            && call.input == FloorPlanInput(PathString(file, settings.separator), Some(outputPath),
                                            settings.creationSqlAsTableNote, settings.renderNullableFields)
            && call.output.destination == Disk(outputPath)
            && call.output.format.configuration ==
                 DbmlConfiguration(settings.creationSqlAsTableNote, settings.renderNullableFields)
  {
  }

  /** A file outside any directory gets no input and no render call: the
      exception of `createOutputPath` is raised instead. */
  lemma {:induction false} RenderCallForFails(file: Path, settings: TaskSettings)
    requires ParentName(file).None?
    ensures InputFor(file, settings) == Err(NotInDirectory(file))
    ensures RenderCallFor(file, settings) == Err(NotInDirectory(file))
  {
  }

  /** `generateFloorPlan` fails exactly when discovery fails, and with the same
      exception: every discovered schema gets its render call. */
  lemma {:induction false} GenerateFloorPlanFails(roots: seq<Located>, settings: TaskSettings)
    ensures GenerateFloorPlan(roots, settings).Err? <==> FindSchemas(roots).Err?
    ensures FindSchemas(roots).Err? ==> GenerateFloorPlan(roots, settings).error == FindSchemas(roots).error
  {
    if FindSchemas(roots).Ok? {
      GenerateFloorPlanCalls(roots, settings);
    }
  }

  /** When discovery succeeds, there is one render call per discovered schema,
      in order, each reading that schema and writing to disk at
      `<outputDir><separator><database>_<version>.dbml` with the flags as
      configured. Standard output is never chosen, because `createOutputPath`
      always yields a path for a discovered schema. */
  lemma {:induction false} GenerateFloorPlanCalls(roots: seq<Located>, settings: TaskSettings)
    requires FindSchemas(roots).Ok?
    ensures GenerateFloorPlan(roots, settings).Ok?
    ensures |GenerateFloorPlan(roots, settings).value| == |FindSchemas(roots).value|
    // The bounds on `files` and `dirs` keep their indices well-formed without `FindSchemasCount` in scope.
    ensures var files := FindSchemas(roots).value;
            var calls := GenerateFloorPlan(roots, settings).value;
            var dirs := DatabaseDirectories(roots);
            forall i :: 0 <= i < |calls| && i < |files| && i < |dirs| ==>
              && calls[i].input.schemaPath == PathString(files[i], settings.separator)
              && calls[i].output.destination.Disk?
              && calls[i].output.destination.path ==
                   settings.outputDir + settings.separator + OutputFileName(dirs[i].node.name, BaseName(files[i]))
              && calls[i].input.creationSqlAsTableNote == settings.creationSqlAsTableNote
              && calls[i].input.renderNullableFields == settings.renderNullableFields
              && calls[i].output.format.configuration.creationSqlAsTableNote == settings.creationSqlAsTableNote
              && calls[i].output.format.configuration.renderNullableFields == settings.renderNullableFields
  {
    var files := FindSchemas(roots).value;
    var dirs := DatabaseDirectories(roots);
    FindSchemasCount(roots);
    DiscoveredSchemasHaveParents(roots);
    var rs := MapSeq(files, file => RenderCallFor(file, settings));
    forall i | 0 <= i < |files|
      ensures rs[i].Ok?
      ensures rs[i].value.input.schemaPath == PathString(files[i], settings.separator)
      ensures rs[i].value.output.destination ==
                Disk(settings.outputDir + settings.separator + OutputFileName(dirs[i].node.name, BaseName(files[i])))
      ensures rs[i].value.input.creationSqlAsTableNote == settings.creationSqlAsTableNote
      ensures rs[i].value.input.renderNullableFields == settings.renderNullableFields
      ensures rs[i].value.output.format.configuration ==
                DbmlConfiguration(settings.creationSqlAsTableNote, settings.renderNullableFields)
    {
      RenderCallForSpec(files[i], settings);
    }
  }
}

=== FILE: file_tree.dfy ===
/** An immutable picture of the part of the file system `FloorPlanTask` reads, and the two
    directory listings it takes of it (`subDirectories`, `listJsonFiles`). */
module FileTree {
  import opened Results
  import opened Names

  /** A `java.io.File` path: whether it starts at the root, then its name components. */
  datatype Path = Path(absolute: bool, segments: seq<string>)

  /** A file-system entry. A directory's `listing` is `None` when `listFiles()`
      returns null for it (it cannot be read). */
  datatype Node = File(name: string) | Dir(name: string, listing: Option<seq<Node>>)

  /** An entry together with the path it was reached by. */
  datatype Located = Located(path: Path, node: Node)

  /** `File.name`: the last component, "" for the bare root. */
  function PathName(p: Path): string
  {
    if |p.segments| == 0 then "" else p.segments[|p.segments| - 1]
  }

  /** `File(parent, child)`. */
  function Child(parent: Path, name: string): (p: Path)
    ensures PathName(p) == name
  {
    Path(parent.absolute, parent.segments + [name])
  }

  /** `File.parentFile.name`, or `None` where `parentFile` is null: a relative
      one-component path and the bare root have no parent; the parent of an
      absolute one-component path is the root, whose name is "". */
  function ParentName(p: Path): Option<string>
  {
    if |p.segments| >= 2 then Some(p.segments[|p.segments| - 2])
    else if |p.segments| == 1 && p.absolute then Some("")
    else None
  }

  /** The parent of `File(parent, name)` is `parent`: its name is the parent's
      name, except that a child of the empty relative path has no parent. */
  lemma {:induction false} ChildParentName(parent: Path, name: string)
    ensures |parent.segments| == 0 && !parent.absolute ==> ParentName(Child(parent, name)).None?
    ensures |parent.segments| > 0 || parent.absolute ==> ParentName(Child(parent, name)) == Some(PathName(parent))
  {
  }

  /** The entries of `ns`, in listing order, each with the path under `parent`. */
  function Locate(parent: Path, ns: seq<Node>): (r: seq<Located>)
    ensures |r| == |ns|
    ensures forall i :: 0 <= i < |ns| ==> r[i] == Located(Child(parent, ns[i].name), ns[i])
  {
    seq(|ns|, i requires 0 <= i < |ns| => Located(Child(parent, ns[i].name), ns[i]))
  }

  lemma {:induction false} LocateAppend(parent: Path, a: seq<Node>, b: seq<Node>)
    ensures Locate(parent, a + b) == Locate(parent, a) + Locate(parent, b)
  {
  }

  /** `File.listFiles()`: the located children, or `None` (null) for a plain
      file and for an unreadable directory. */
  function Children(loc: Located): Option<seq<Located>>
  {
    match loc.node
    case File(_) => None
    case Dir(_, None) => None
    case Dir(_, Some(ns)) => Some(Locate(loc.path, ns))
  }

  /** The elements of `xs` that `keep` accepts, in their original order. */
  function Filter<T(!new)>(xs: seq<T>, keep: T -> bool): (r: seq<T>)
    ensures |r| <= |xs|
    ensures forall x :: x in r <==> x in xs && keep(x)
  {
    if |xs| == 0 then []
    else if keep(xs[0]) then [xs[0]] + Filter(xs[1..], keep)
    else Filter(xs[1..], keep)
  }

  lemma {:induction false} FilterAppend<T(!new)>(a: seq<T>, b: seq<T>, keep: T -> bool)
    ensures Filter(a + b, keep) == Filter(a, keep) + Filter(b, keep)
  {
    if |a| > 0 {
      assert (a + b)[1..] == a[1..] + b;
      FilterAppend(a[1..], b, keep);
    } else {
      assert a + b == b;
    }
  }

  /** Dropping rejected elements changes nothing that the filter keeps. */
  lemma {:induction false} FilterIgnoresRejected<T(!new)>(a: seq<T>, extra: seq<T>, b: seq<T>, keep: T -> bool)
    requires forall i :: 0 <= i < |extra| ==> !keep(extra[i])
    ensures Filter(a + extra + b, keep) == Filter(a + b, keep)
  {
    FilterDropsRejectedSuffix(a, extra, keep);
    FilterAppend(a + extra, b, keep);
    FilterAppend(a, b, keep);
  }

  lemma {:induction false} FilterDropsRejectedSuffix<T(!new)>(a: seq<T>, extra: seq<T>, keep: T -> bool)
    requires forall i :: 0 <= i < |extra| ==> !keep(extra[i])
    ensures Filter(a + extra, keep) == Filter(a, keep)
  {
    FilterAppend(a, extra, keep);
    FilterAllRejected(extra, keep);
    assert Filter(a, keep) + [] == Filter(a, keep);
  }

  lemma {:induction false} FilterAllRejected<T(!new)>(xs: seq<T>, keep: T -> bool)
    requires forall i :: 0 <= i < |xs| ==> !keep(xs[i])
    ensures Filter(xs, keep) == []
  {
    if |xs| > 0 {
      FilterAllRejected(xs[1..], keep);
    }
  }

  lemma {:induction false} FilterAllKept<T(!new)>(xs: seq<T>, keep: T -> bool)
    requires forall i :: 0 <= i < |xs| ==> keep(xs[i])
    ensures Filter(xs, keep) == xs
  {
    if |xs| > 0 {
      FilterAllKept(xs[1..], keep);
      assert xs == [xs[0]] + xs[1..];
    }
  }

  predicate IsDirectory(loc: Located)
  {
    loc.node.Dir?
  }

  predicate HasJsonExtension(loc: Located)
  {
    IsJson(loc.node.name)
  }

  /** `subDirectories`: the children that are directories; nothing when the
      listing is null. */
  function SubDirectories(loc: Located): seq<Located>
  {
    match Children(loc)
    case None => []
    case Some(cs) => Filter(cs, IsDirectory)
  }

  /** `listJsonFiles`: the paths of the children whose extension is `json`
      (whatever their kind); nothing when the listing is null. */
  function ListJsonFiles(loc: Located): seq<Path>
  {
    match Children(loc)
    case None => []
    case Some(cs) => PathsOf(Filter(cs, HasJsonExtension))
  }

  function PathsOf(ls: seq<Located>): (r: seq<Path>)
    ensures |r| == |ls|
    ensures forall i :: 0 <= i < |ls| ==> r[i] == ls[i].path
  {
    seq(|ls|, i requires 0 <= i < |ls| => ls[i].path)
  }

  /** What `subDirectories` yields: entries of the listing of a readable `loc`
      that are directories, each at its child path; every directory entry of
      a readable `loc`; and nothing for a plain file or an unreadable
      directory. */
  lemma {:induction false} SubDirectoriesSpec(loc: Located)
    ensures forall d :: d in SubDirectories(loc) ==>
              && loc.node.Dir? && loc.node.listing.Some?
              && d.node in loc.node.listing.value
              && d.node.Dir? && d.path == Child(loc.path, d.node.name)
    ensures loc.node.Dir? && loc.node.listing.Some? ==>
              forall n :: n in loc.node.listing.value && n.Dir? ==>
                Located(Child(loc.path, n.name), n) in SubDirectories(loc)
    ensures loc.node.File? || loc.node.listing.None? ==> SubDirectories(loc) == []
  {
    if loc.node.Dir? && loc.node.listing.Some? {
      var ns := loc.node.listing.value;
      var cs := Locate(loc.path, ns);
      forall d | d in SubDirectories(loc)
        ensures d.node in ns && d.path == Child(loc.path, d.node.name)
      {
        var i :| 0 <= i < |cs| && cs[i] == d;
        assert d.node == ns[i];
      }
    }
  }

  /** A listing of directories only is yielded whole, in listing order, each
      entry once: with `Discovery.PlainFilesAreNotDatabases`, this fixes the
      order and multiplicity of `subDirectories` for any listing. */
  lemma {:induction false} AllDirectoriesListed(path: Path, name: string, ns: seq<Node>)
    requires forall i :: 0 <= i < |ns| ==> ns[i].Dir?
    ensures SubDirectories(Located(path, Dir(name, Some(ns)))) == Locate(path, ns)
  {
    var cs := Locate(path, ns);
    forall i | 0 <= i < |cs|
      ensures IsDirectory(cs[i])
    {
      assert cs[i].node == ns[i];
    }
    FilterAllKept(cs, IsDirectory);
  }

  /** What `listJsonFiles` yields: the child paths of entries of the listing of
      a readable `loc` whose name has the `json` extension; nothing for a plain
      file or an unreadable directory. */
  lemma {:induction false} ListJsonFilesSound(loc: Located)
    ensures forall p :: p in ListJsonFiles(loc) ==>
              && loc.node.Dir? && loc.node.listing.Some?
              && (exists n :: n in loc.node.listing.value && IsJson(n.name) && p == Child(loc.path, n.name))
              && IsJson(PathName(p)) && p == Child(loc.path, PathName(p))
    ensures loc.node.File? || loc.node.listing.None? ==> ListJsonFiles(loc) == []
  {
    match Children(loc)
    case None =>
    case Some(cs) =>
      var ns := loc.node.listing.value;
      var kept := Filter(cs, HasJsonExtension);
      forall p | p in ListJsonFiles(loc)
        ensures exists n :: n in ns && IsJson(n.name) && p == Child(loc.path, n.name)
        ensures IsJson(PathName(p)) && p == Child(loc.path, PathName(p))
      {
        var i :| 0 <= i < |kept| && PathsOf(kept)[i] == p;
        assert kept[i] in cs;
        var j :| 0 <= j < |cs| && cs[j] == kept[i];
        assert ns[j] in ns && p == Child(loc.path, ns[j].name);
      }
  }

  /** A listing of `json` entries only is yielded whole, in listing order,
      each entry once: with `NonJsonEntriesNotListed`, this fixes
      the order and multiplicity of `listJsonFiles` for any listing. */
  lemma {:induction false} AllJsonListed(path: Path, name: string, ns: seq<Node>)
    requires forall i :: 0 <= i < |ns| ==> IsJson(ns[i].name)
    ensures var r := ListJsonFiles(Located(path, Dir(name, Some(ns))));
            |r| == |ns| && forall i :: 0 <= i < |ns| ==> r[i] == Child(path, ns[i].name)
  {
    var cs := Locate(path, ns);
    forall i | 0 <= i < |cs|
      ensures HasJsonExtension(cs[i])
    {
      assert cs[i].node == ns[i];
    }
    FilterAllKept(cs, HasJsonExtension);
  }

  /** Every child of a readable `loc` whose name has the `json` extension is listed. */
  lemma {:induction false} ListJsonFilesComplete(loc: Located, n: Node)
    requires loc.node.Dir? && loc.node.listing.Some?
    requires n in loc.node.listing.value && IsJson(n.name)
    ensures Child(loc.path, n.name) in ListJsonFiles(loc)
  {
    var ns := loc.node.listing.value;
    var cs := Locate(loc.path, ns);
    var kept := Filter(cs, HasJsonExtension);
    var i :| 0 <= i < |ns| && ns[i] == n;
    var l := Located(Child(loc.path, n.name), n);
    assert cs[i] == l;
    assert HasJsonExtension(l);
    assert l in kept;
    var j :| 0 <= j < |kept| && kept[j] == l;
    assert PathsOf(kept)[j] == l.path;
  }

  /** Entries whose name lacks the `json` extension, wherever they sit in a
      listing, are not listed and leave the listed paths, their order and
      their number unchanged. */
  lemma {:induction false} NonJsonEntriesNotListed(path: Path, name: string, before: seq<Node>, extra: seq<Node>, after: seq<Node>)
    requires forall i :: 0 <= i < |extra| ==> !IsJson(extra[i].name)
    ensures ListJsonFiles(Located(path, Dir(name, Some(before + extra + after))))
         == ListJsonFiles(Located(path, Dir(name, Some(before + after))))
  {
    var a, x, b := Locate(path, before), Locate(path, extra), Locate(path, after);
    LocateAppend(path, before + extra, after);
    LocateAppend(path, before, extra);
    LocateAppend(path, before, after);
    forall i | 0 <= i < |x|
      ensures !HasJsonExtension(x[i])
    {
      assert x[i].node == extra[i];
    }
    FilterIgnoresRejected(a, x, b, HasJsonExtension);
  }
}

=== FILE: int_parse.dfy ===
/** `String.toInt()` of Kotlin, which is `Integer.parseInt` of the JVM: an optional
    '+' or '-' sign, then one or more decimal digits, and a value that fits in a
    signed 32-bit integer. Anything else is a `NumberFormatException`, here `None`. */
module IntParse {
  import opened Results

  const MinInt32: int := -0x8000_0000
  const MaxInt32: int := 0x7FFF_FFFF

  predicate InInt32(v: int)
  {
    MinInt32 <= v <= MaxInt32
  }

  predicate IsDigit(c: char)
  {
    '0' <= c <= '9'
  }

  predicate AllDigits(s: string)
  {
    forall i :: 0 <= i < |s| ==> IsDigit(s[i])
  }

  function DigitValue(c: char): nat
    requires IsDigit(c)
  {
    (c - '0') as nat
  }

  function DigitChar(d: nat): (c: char)
    requires d < 10
    ensures IsDigit(c) && DigitValue(c) == d
  {
    ('0' as int + d) as char
  }

  /** The number a digit string denotes, read most significant digit first. */
  function DigitsValue(s: string): nat
    requires AllDigits(s)
  {
    if |s| == 0 then 0
    else DigitsValue(s[..|s| - 1]) * 10 + DigitValue(s[|s| - 1])
  }

  /** The sign prefix and the remaining text, as `parseInt` splits them. */
  function SplitSign(s: string): (bool, string)
  {
    if |s| > 0 && s[0] == '-' then (true, s[1..])
    else if |s| > 0 && s[0] == '+' then (false, s[1..])
    else (false, s)
  }

  function ToInt(s: string): (r: Option<int>)
    ensures r.Some? ==> InInt32(r.value)
    ensures r.Some? ==> |s| > 0 && AllDigits(SplitSign(s).1) && |SplitSign(s).1| > 0
  {
    var (negative, digits) := SplitSign(s);
    if |digits| == 0 || !AllDigits(digits) then None
    else
      var magnitude: int := DigitsValue(digits);
      var v := if negative then -magnitude else magnitude;
      if InInt32(v) then Some(v) else None
  }

  /** Decimal rendering of a natural number, without leading zeros. */
  function ShowNat(n: nat): (s: string)
    ensures |s| > 0 && AllDigits(s)
    decreases n
  {
    if n < 10 then [DigitChar(n)]
    else ShowNat(n / 10) + [DigitChar(n % 10)]
  }

  /** Decimal rendering of an integer, as `Int.toString()` writes it. */
  function Show(v: int): string
  {
    if v < 0 then "-" + ShowNat(-v) else ShowNat(v)
  }

  lemma {:induction false} ShowNatValue(n: nat)
    ensures DigitsValue(ShowNat(n)) == n
    decreases n
  {
    if n >= 10 {
      var s := ShowNat(n);
      assert s[..|s| - 1] == ShowNat(n / 10);
      ShowNatValue(n / 10);
    }
  }

  /** Every 32-bit value survives being written out and read back. */
  lemma {:induction false} ParseShowRoundTrip(v: int)
    requires InInt32(v)
    ensures ToInt(Show(v)) == Some(v)
  {
    if v < 0 {
      var digits := ShowNat(-v);
      assert ("-" + digits)[1..] == digits;
      assert SplitSign(Show(v)) == (true, digits);
      ShowNatValue(-v);
    } else {
      var digits := ShowNat(v);
      assert IsDigit(digits[0]);
      assert SplitSign(Show(v)) == (false, digits);
      ShowNatValue(v);
    }
  }

  /** What `parseInt` accepts: digits, optionally signed, whose value fits. */
  lemma {:induction false} ToIntAccepts(digits: string)
    requires |digits| > 0 && AllDigits(digits)
    ensures InInt32(DigitsValue(digits)) ==> ToInt(digits) == Some(DigitsValue(digits))
    ensures InInt32(DigitsValue(digits)) ==> ToInt("+" + digits) == Some(DigitsValue(digits))
    ensures InInt32(0 - DigitsValue(digits)) ==> ToInt("-" + digits) == Some(0 - DigitsValue(digits))
  {
  }

  /** What `parseInt` rejects: nothing at all, a bare sign, a non-digit after the
      sign, and a value outside the 32-bit range, signed or not. */
  lemma {:induction false} ToIntRejects(s: string)
    ensures s == "" || s == "-" || s == "+" ==> ToInt(s) == None
    ensures (exists i :: 0 <= i < |SplitSign(s).1| && !IsDigit(SplitSign(s).1[i])) ==> ToInt(s) == None
    ensures var (negative, digits) := SplitSign(s);
            (|digits| > 0 && AllDigits(digits) &&
             !InInt32(if negative then 0 - DigitsValue(digits) else DigitsValue(digits))) ==> ToInt(s) == None
  {
  }
}

=== FILE: max_by.dfy ===
/** Kotlin's `Iterable.maxBy(selector)` for a selector that may throw, modelled
    as one returning `None`. */
module MaxSelection {
  import opened Results

  /** null for an empty list, the exception raised by the selector on `item`,
      or the selected element. */
  datatype Selection<T> = NoCandidates | KeyFailed(item: T) | Chosen(item: T)

  /** An empty list gives null; a one-element list gives that element without
      evaluating the selector; otherwise the selector runs on every element in
      order, the first failure propagates, and a later element replaces the
      current best only when its key is strictly larger. */
  function MaxBy<T>(xs: seq<T>, key: T -> Option<int>): (r: Selection<T>)
    ensures r.NoCandidates? <==> |xs| == 0
    ensures r.Chosen? ==> r.item in xs
    ensures r.KeyFailed? ==> r.item in xs && key(r.item).None?
  {
    if |xs| == 0 then NoCandidates
    else if |xs| == 1 then Chosen(xs[0])
    else
      match key(xs[0])
      case None => KeyFailed(xs[0])
      case Some(v) => ScanFrom(xs, key, 1, 0, v)
  }

  /** The loop of `maxBy` from position `i` on, with the best element so far at
      position `best` and its key `bestKey`. */
  function ScanFrom<T>(xs: seq<T>, key: T -> Option<int>, i: nat, best: nat, bestKey: int): (r: Selection<T>)
    requires best < i <= |xs|
    ensures !r.NoCandidates?
    ensures r.Chosen? ==> r.item in xs
    ensures r.KeyFailed? ==> r.item in xs[i..] && key(r.item).None?
    decreases |xs| - i
  {
    if i == |xs| then Chosen(xs[best])
    else
      match key(xs[i])
      case None => KeyFailed(xs[i])
      case Some(v) =>
        if bestKey < v then ScanFrom(xs, key, i + 1, i, v)
        else ScanFrom(xs, key, i + 1, best, bestKey)
  }

  predicate AllKeyed<T>(xs: seq<T>, key: T -> Option<int>)
  {
    forall i :: 0 <= i < |xs| ==> key(xs[i]).Some?
  }

  /** Position `k` holds a largest key, and every earlier position a strictly
      smaller one: the element `maxBy` must return. */
  predicate IsFirstMaximum<T>(xs: seq<T>, key: T -> Option<int>, k: int)
  {
    && 0 <= k < |xs|
    && key(xs[k]).Some?
    && (forall j :: 0 <= j < |xs| ==> key(xs[j]).Some? && key(xs[j]).value <= key(xs[k]).value)
    && (forall j :: 0 <= j < k ==> key(xs[j]).value < key(xs[k]).value)
  }

  lemma {:induction false} ScanFindsFirstMaximum<T>(xs: seq<T>, key: T -> Option<int>, i: nat, best: nat, bestKey: int)
    requires best < i <= |xs|
    requires AllKeyed(xs, key)
    requires key(xs[best]) == Some(bestKey)
    requires forall j :: 0 <= j < i ==> key(xs[j]).value <= bestKey
    requires forall j :: 0 <= j < best ==> key(xs[j]).value < bestKey
    ensures exists k :: IsFirstMaximum(xs, key, k) && ScanFrom(xs, key, i, best, bestKey) == Chosen(xs[k])
    decreases |xs| - i
  {
    if i == |xs| {
      assert IsFirstMaximum(xs, key, best);
    } else {
      var v := key(xs[i]).value;
      if bestKey < v {
        ScanFindsFirstMaximum(xs, key, i + 1, i, v);
      } else {
        ScanFindsFirstMaximum(xs, key, i + 1, best, bestKey);
      }
    }
  }

  /** When the selector succeeds on every element, `maxBy` returns the first
      element carrying the largest key. */
  lemma {:induction false} SelectsFirstMaximum<T>(xs: seq<T>, key: T -> Option<int>)
    requires |xs| > 0 && AllKeyed(xs, key)
    ensures exists k :: IsFirstMaximum(xs, key, k) && MaxBy(xs, key) == Chosen(xs[k])
  {
    if |xs| == 1 {
      assert IsFirstMaximum(xs, key, 0);
    } else {
      ScanFindsFirstMaximum(xs, key, 1, 0, key(xs[0]).value);
    }
  }

  /** The first maximum is unique, so it is what `maxBy` returns. */
  lemma {:induction false} FirstMaximumIsSelected<T>(xs: seq<T>, key: T -> Option<int>, k: int)
    requires IsFirstMaximum(xs, key, k)
    ensures MaxBy(xs, key) == Chosen(xs[k])
  {
    SelectsFirstMaximum(xs, key);
    var m :| IsFirstMaximum(xs, key, m) && MaxBy(xs, key) == Chosen(xs[m]);
    assert key(xs[m]).value <= key(xs[k]).value && key(xs[k]).value <= key(xs[m]).value;
    assert !(m < k) && !(k < m);
  }

  lemma {:induction false} ScanFailsAtFirstUnkeyed<T>(xs: seq<T>, key: T -> Option<int>, i: nat, best: nat, bestKey: int, f: nat)
    requires best < i <= f < |xs|
    requires key(xs[f]).None?
    requires forall j :: i <= j < f ==> key(xs[j]).Some?
    ensures ScanFrom(xs, key, i, best, bestKey) == KeyFailed(xs[f])
    decreases |xs| - i
  {
    if i < f {
      var v := key(xs[i]).value;
      if bestKey < v {
        ScanFailsAtFirstUnkeyed(xs, key, i + 1, i, v, f);
      } else {
        ScanFailsAtFirstUnkeyed(xs, key, i + 1, best, bestKey, f);
      }
    }
  }

  /** The position of the first element the selector fails on. */
  function FirstUnkeyed<T>(xs: seq<T>, key: T -> Option<int>): (f: nat)
    requires !AllKeyed(xs, key)
    ensures f < |xs| && key(xs[f]).None?
    ensures forall j :: 0 <= j < f ==> key(xs[j]).Some?
  {
    if key(xs[0]).None? then 0
    else
      assert !AllKeyed(xs[1..], key) by {
        var i :| 0 <= i < |xs| && key(xs[i]).None?;
        assert xs[1..][i - 1] == xs[i];
      }
      1 + FirstUnkeyed(xs[1..], key)
  }

  /** With two or more elements, a selector failure is not skipped: `maxBy`
      fails on the first element, in list order, that the selector rejects. */
  lemma {:induction false} FailsAtFirstUnkeyed<T>(xs: seq<T>, key: T -> Option<int>)
    requires |xs| >= 2 && !AllKeyed(xs, key)
    ensures MaxBy(xs, key) == KeyFailed(xs[FirstUnkeyed(xs, key)])
  {
    var f := FirstUnkeyed(xs, key);
    if f > 0 {
      ScanFailsAtFirstUnkeyed(xs, key, 1, 0, key(xs[0]).value, f);
    }
  }

  /** The selector's failure surfaces exactly when there are two or more
      elements and it fails on one of them. */
  lemma {:induction false} FailsIffSomeKeyFails<T>(xs: seq<T>, key: T -> Option<int>)
    ensures MaxBy(xs, key).KeyFailed? <==> |xs| >= 2 && !AllKeyed(xs, key)
  {
    if |xs| >= 2 && AllKeyed(xs, key) {
      SelectsFirstMaximum(xs, key);
    } else if |xs| >= 2 {
      FailsAtFirstUnkeyed(xs, key);
    }
  }

  /** A lone element is returned as it is: the selector is never called. */
  lemma {:induction false} LoneElementIsNotKeyed<T>(x: T, key: T -> Option<int>)
    ensures MaxBy([x], key) == Chosen(x)
  {
  }
}

=== FILE: names.dfy ===
/** File-name helpers of the Kotlin standard library as used by `FloorPlanTask`:
    `File.extension` is the text after the last '.', or "" when there is none;
    `File.nameWithoutExtension` is the text before the last '.', or the whole name. */
module Names {
  import opened Results

  /** Position of the last occurrence of `c` in `s`, if any. */
  function LastIndexOf(s: string, c: char): (r: Option<nat>)
    ensures r.None? <==> c !in s
    ensures r.Some? ==> r.value < |s| && s[r.value] == c && c !in s[r.value + 1..]
  {
    if |s| == 0 then None
    else if s[|s| - 1] == c then Some(|s| - 1)
    else
      assert s == s[..|s| - 1] + [s[|s| - 1]];
      LastIndexOf(s[..|s| - 1], c)
  }

  /** Any position holding `c` with no `c` after it is the one `LastIndexOf` finds. */
  lemma {:induction false} LastIndexOfUnique(s: string, c: char, k: nat)
    requires k < |s| && s[k] == c && c !in s[k + 1..]
    ensures LastIndexOf(s, c) == Some(k)
  {
  }

  function Extension(name: string): string
  {
    match LastIndexOf(name, '.')
    case None => ""
    case Some(i) => name[i + 1..]
  }

  function NameWithoutExtension(name: string): string
  {
    match LastIndexOf(name, '.')
    case None => name
    case Some(i) => name[..i]
  }

  predicate IsJson(name: string)
  {
    Extension(name) == "json"
  }

  /** Splitting a name at its last dot loses nothing: the two halves and the dot
      give the name back, and the extension never contains a dot. */
  lemma {:induction false} SplitAtLastDot(name: string)
    ensures '.' !in Extension(name)
    ensures '.' in name ==> NameWithoutExtension(name) + "." + Extension(name) == name
    ensures '.' !in name ==> NameWithoutExtension(name) == name && Extension(name) == ""
  {
    match LastIndexOf(name, '.')
    case None =>
    case Some(i) =>
      assert name == name[..i] + [name[i]] + name[i + 1..];
  }

  /** Joining a base and a dot-free extension is undone by the two accessors. */
  lemma {:induction false} JoinThenSplit(base: string, ext: string)
    requires '.' !in ext
    ensures Extension(base + "." + ext) == ext
    ensures NameWithoutExtension(base + "." + ext) == base
  {
    var s := base + "." + ext;
    assert s[|base| + 1..] == ext;
    assert s[..|base|] == base;
    LastIndexOfUnique(s, '.', |base|);
  }
}

=== FILE: output_naming.dfy ===
/** `createOutputPath`: where the DBML for one schema file is written,
    `<outputDir><separator><parentName>_<baseName>.dbml`. */
module OutputNaming {
  import opened Results
  import opened Names
  import opened FileTree
  import opened SchemaErrors
  import opened VersionSelect

  /** `File.absolutePath` for a path that is already absolute: the components
      joined by the separator, with a leading separator for an absolute path. */
  function PathString(p: Path, separator: string): string
  {
    (if p.absolute then separator else "") + Join(p.segments, separator)
  }

  function Join(parts: seq<string>, separator: string): string
  {
    if |parts| == 0 then ""
    else if |parts| == 1 then parts[0]
    else parts[0] + separator + Join(parts[1..], separator)
  }

  /** The file name of the diagram for a schema `baseName` in directory `parentName`. */
  function OutputFileName(parentName: string, baseName: string): string
  {
    parentName + "_" + baseName + ".dbml"
  }

  /** The output name keeps the database and version apart from the format:
      its extension is `dbml` and the rest is `<parentName>_<baseName>`. */
  lemma {:induction false} OutputFileNameSplits(parentName: string, baseName: string)
    ensures Extension(OutputFileName(parentName, baseName)) == "dbml"
    ensures NameWithoutExtension(OutputFileName(parentName, baseName)) == parentName + "_" + baseName
  {
    assert OutputFileName(parentName, baseName) == (parentName + "_" + baseName) + "." + "dbml";
    JoinThenSplit(parentName + "_" + baseName, "dbml");
  }

  /** `createOutputPath`: fails exactly when the file has no parent directory;
      otherwise the path is the output directory, the separator, and a file
      name whose extension is `dbml` and whose base is the parent directory's
      name and the schema's base name joined by '_'. */
  function CreateOutputPath(file: Path, outputDir: string, separator: string): (r: Result<string, SchemaError>)
    ensures r.Err? <==> ParentName(file).None?
    ensures r.Err? ==> r.error == NotInDirectory(file)
    ensures r.Ok? ==>
              |r.value| >= |outputDir + separator| &&
              var name := r.value[|outputDir + separator|..];
              && r.value == outputDir + separator + name
              && Extension(name) == "dbml"
              && NameWithoutExtension(name) == ParentName(file).value + "_" + BaseName(file)
  {
    match ParentName(file)
    case None => Err(NotInDirectory(file))
    case Some(parentName) =>
      var name := OutputFileName(parentName, BaseName(file));
      OutputFileNameSplits(parentName, BaseName(file));
      var path := outputDir + separator + name;
      assert path[|outputDir + separator|..] == name;
      Ok(path)
  }
}

=== FILE: results.dfy ===
/** Optional values and failure-carrying results shared by every module of the model.
    `None` stands for Kotlin's `null`; `Err` for a thrown exception. */
module Results {

  datatype Option<+T> = None | Some(value: T)

  datatype Result<+T, +E> = Ok(value: T) | Err(error: E)
}

=== FILE: scenarios.dfy ===
/** Worked instances of the behaviour of `FloorPlanTask` on small directories, stated for any
    database directory whose `json` entries have the given base names. */
module Scenarios {
  import opened Results
  import opened IntParse
  import opened FileTree
  import opened SchemaErrors
  import opened MaxSelection
  import opened VersionSelect
  import opened OutputNaming

  lemma SmallVersionsParse()
    ensures ToInt("1") == Some(1) && ToInt("2") == Some(2) && ToInt("3") == Some(3)
    ensures ToInt("5") == Some(5) && ToInt("7") == Some(7)
  {
  }

  lemma TwoDigitVersionsParse()
    ensures ToInt("10") == Some(10) && ToInt("07") == Some(7)
  {
    assert "10"[..1] == "1";
    assert "07"[..1] == "0";
    assert DigitsValue("1") == 1 && DigitsValue("10") == 10;
    assert DigitsValue("0") == 0 && DigitsValue("07") == 7;
    ToIntAccepts("10");
    ToIntAccepts("07");
  }

  lemma {:induction false} TwoTenOneFiveVersions(files: seq<Path>)
    requires |files| == 4
    requires BaseName(files[0]) == "2" && BaseName(files[1]) == "10"
    requires BaseName(files[2]) == "1" && BaseName(files[3]) == "5"
    ensures Version(files[0]) == Some(2) && Version(files[1]) == Some(10)
    ensures Version(files[2]) == Some(1) && Version(files[3]) == Some(5)
  {
    SmallVersionsParse();
    TwoDigitVersionsParse();
  }

  lemma {:induction false} TwoTenOneFive(files: seq<Path>)
    requires |files| == 4
    requires BaseName(files[0]) == "2" && BaseName(files[1]) == "10"
    requires BaseName(files[2]) == "1" && BaseName(files[3]) == "5"
    ensures MaxBy(files, Version) == Chosen(files[1])
  {
    TwoTenOneFiveVersions(files);
    forall j | 0 <= j < |files|
      ensures Version(files[j]).Some? && Version(files[j]).value <= 10
    {
      // One case per position, so that each fact about `files[0]`, `files[1]`, ...
      // applies to `files[j]`.
      if j == 0 {} else if j == 1 {} else if j == 2 {} else {}
    }
    assert IsFirstMaximum(files, Version, 1);
    FirstMaximumIsSelected(files, Version, 1);
  }

  /** Versions 2, 10, 1 and 5, listed in that order: the file for version 10 is
      selected, by numeric value rather than by name or position. */
  lemma {:induction false} NumericallyLatestVersionWins(dbDir: Located)
    requires var files := ListJsonFiles(dbDir);
             && |files| == 4
             && BaseName(files[0]) == "2" && BaseName(files[1]) == "10"
             && BaseName(files[2]) == "1" && BaseName(files[3]) == "5"
    ensures FindLatestSchemaVersion(dbDir) == Ok(ListJsonFiles(dbDir)[1])
  {
    TwoTenOneFive(ListJsonFiles(dbDir));
  }

  lemma {:induction false} SevenThreeSevenVersions(files: seq<Path>)
    requires |files| == 3
    requires BaseName(files[0]) == "07" && BaseName(files[1]) == "3" && BaseName(files[2]) == "7"
    ensures Version(files[0]) == Some(7) && Version(files[1]) == Some(3) && Version(files[2]) == Some(7)
  {
    SmallVersionsParse();
    TwoDigitVersionsParse();
  }

  lemma {:induction false} SevenThreeSeven(files: seq<Path>)
    requires |files| == 3
    requires BaseName(files[0]) == "07" && BaseName(files[1]) == "3" && BaseName(files[2]) == "7"
    ensures MaxBy(files, Version) == Chosen(files[0])
  {
    SevenThreeSevenVersions(files);
    forall j | 0 <= j < |files|
      ensures Version(files[j]).Some? && Version(files[j]).value <= 7
    {
      // One case per position, so that each fact about `files[0]`, `files[1]`, ...
      // applies to `files[j]`.
      if j == 0 {} else if j == 1 {} else {}
    }
    assert IsFirstMaximum(files, Version, 0);
    FirstMaximumIsSelected(files, Version, 0);
  }

  /** Versions written "07" and "7" are the same number: the first listed wins. */
  lemma {:induction false} TieGoesToFirstListed(dbDir: Located)
    requires var files := ListJsonFiles(dbDir);
             && |files| == 3
             && BaseName(files[0]) == "07" && BaseName(files[1]) == "3" && BaseName(files[2]) == "7"
    ensures FindLatestSchemaVersion(dbDir) == Ok(ListJsonFiles(dbDir)[0])
  {
    SevenThreeSeven(ListJsonFiles(dbDir));
  }

  /** A `latest.json` beside `1.json` is not skipped: selection fails on it. */
  lemma {:induction false} NonNumericNameIsAnError(dbDir: Located)
    requires var files := ListJsonFiles(dbDir);
             |files| == 2 && BaseName(files[0]) == "1" && BaseName(files[1]) == "latest"
    ensures FindLatestSchemaVersion(dbDir) == Err(NumberFormat("latest"))
  {
    OneThenLatest(ListJsonFiles(dbDir));
  }

  lemma {:induction false} OneThenLatest(files: seq<Path>)
    requires |files| == 2 && BaseName(files[0]) == "1" && BaseName(files[1]) == "latest"
    ensures MaxBy(files, Version) == KeyFailed(files[1])
  {
    SmallVersionsParse();
    assert !IsDigit("latest"[0]);
    ToIntRejects("latest");
    assert Version(files[1]) == None;
    FailsAtFirstUnkeyed(files, Version);
    assert FirstUnkeyed(files, Version) == 1;
  }

  /** A lone `latest.json` is selected: its name is never parsed. */
  lemma {:induction false} LoneNonNumericNameIsSelected(dbDir: Located)
    requires |ListJsonFiles(dbDir)| == 1 && BaseName(ListJsonFiles(dbDir)[0]) == "latest"
    ensures FindLatestSchemaVersion(dbDir) == Ok(ListJsonFiles(dbDir)[0])
  {
  }

  /** The schema file `3.json` has base name `3`. */
  lemma {:induction false} ThreeJsonBaseName(file: Path)
    requires file.segments != [] && file.segments[|file.segments| - 1] == "3.json"
    ensures BaseName(file) == "3"
  {
  }

  /** `/roots/appdb/3.json` with output directory `/out` is written to `/out/appdb_3.dbml`. */
  lemma OutputPathExample()
    ensures CreateOutputPath(Path(true, ["roots", "appdb", "3.json"]), "/out", "/") == Ok("/out/appdb_3.dbml")
  {
    var file := Path(true, ["roots", "appdb", "3.json"]);
    ThreeJsonBaseName(file);
    assert "/out" + "/" + OutputFileName("appdb", "3") == "/out/appdb_3.dbml";
  }

  /** Two roots that both hold an `appdb` database give the same output path:
      nothing keeps the diagrams of different roots apart. */
  lemma SameDatabaseNameCollides()
    ensures CreateOutputPath(Path(true, ["a", "appdb", "3.json"]), "/out", "/")
         == CreateOutputPath(Path(true, ["b", "appdb", "3.json"]), "/out", "/")
  {
  }

  /** A schema path of one relative component has no parent directory. */
  lemma OrphanSchemaFileRejected()
    ensures CreateOutputPath(Path(false, ["3.json"]), "/out", "/") == Err(NotInDirectory(Path(false, ["3.json"])))
  {
  }
}

=== FILE: version_select.dfy ===
/** `findLatestSchemaVersion` and `listJsonFiles`: among the `json` entries of one
    database directory, the one whose base name is the largest integer. */
module VersionSelect {
  import opened Results
  import opened Names
  import opened IntParse
  import opened FileTree
  import opened SchemaErrors
  import opened MaxSelection

  /** The text `toInt()` is applied to: the file's name without its extension. */
  function BaseName(p: Path): string
  {
    NameWithoutExtension(PathName(p))
  }

  /** The schema version a file name denotes, `None` where `toInt()` throws. */
  function Version(p: Path): (v: Option<int>)
    ensures v.Some? ==> InInt32(v.value)
  {
    ToInt(BaseName(p))
  }

  /** `findLatestSchemaVersion`: the latest `json` entry of the database
      directory, or the `IllegalArgumentException` or `NumberFormatException` it throws. */
  function FindLatestSchemaVersion(dbDir: Located): Result<Path, SchemaError>
  {
    match MaxBy(ListJsonFiles(dbDir), Version)
    case NoCandidates => Err(NoSchemasInDirectory(dbDir.path))
    case KeyFailed(p) => Err(NumberFormat(BaseName(p)))
    case Chosen(p) => Ok(p)
  }

  /** The outcomes of `findLatestSchemaVersion`: one of the directory's `json`
      entries; the "no schemas" error exactly when there are none; otherwise a
      number-format error naming a `json` entry whose base name does not parse. */
  lemma {:induction false} FindLatestSchemaVersionSpec(dbDir: Located)
    ensures var r := FindLatestSchemaVersion(dbDir);
            && (r.Ok? ==> r.value in ListJsonFiles(dbDir))
            && (r == Err(NoSchemasInDirectory(dbDir.path)) <==> |ListJsonFiles(dbDir)| == 0)
            && (r.Err? ==> r.error.NoSchemasInDirectory? || r.error.NumberFormat?)
            && (r.Err? && r.error.NumberFormat? ==>
                  exists p :: p in ListJsonFiles(dbDir) && Version(p).None? && r.error.input == BaseName(p))
  {
  }

  /** The selected schema is the child path of a `json` entry of the database
      directory's listing. */
  lemma {:induction false} LatestIsJsonChild(dbDir: Located)
    requires FindLatestSchemaVersion(dbDir).Ok?
    ensures var p := FindLatestSchemaVersion(dbDir).value;
            && dbDir.node.Dir? && dbDir.node.listing.Some?
            && (exists n :: n in dbDir.node.listing.value && IsJson(n.name) && p == Child(dbDir.path, n.name))
            && IsJson(PathName(p)) && p == Child(dbDir.path, PathName(p))
  {
    FindLatestSchemaVersionSpec(dbDir);
    ListJsonFilesSound(dbDir);
  }

  /** A plain file or an unreadable directory has no schemas. */
  lemma {:induction false} UnreadableDirectoryHasNoSchemas(dbDir: Located)
    requires dbDir.node.File? || dbDir.node.listing.None?
    ensures FindLatestSchemaVersion(dbDir) == Err(NoSchemasInDirectory(dbDir.path))
  {
  }

  /** When the directory has `json` entries and all their base names parse, the
      result is the first of them, in listing order, whose version is largest. */
  lemma {:induction false} LatestIsNewest(dbDir: Located)
    requires |ListJsonFiles(dbDir)| > 0 && AllKeyed(ListJsonFiles(dbDir), Version)
    ensures exists k :: IsFirstMaximum(ListJsonFiles(dbDir), Version, k) &&
              FindLatestSchemaVersion(dbDir) == Ok(ListJsonFiles(dbDir)[k])
  {
    SelectsFirstMaximum(ListJsonFiles(dbDir), Version);
  }

  /** With two or more `json` entries, one whose base name is not an integer makes
      the selection fail, naming the first such base name in listing order;
      a single `json` entry is selected whatever its name. */
  lemma {:induction false} NonIntegerNameFails(dbDir: Located)
    ensures var files := ListJsonFiles(dbDir);
            |files| >= 2 && !AllKeyed(files, Version) ==>
              && FindLatestSchemaVersion(dbDir).Err?
              && FindLatestSchemaVersion(dbDir).error.NumberFormat?
              && FindLatestSchemaVersion(dbDir).error.input == BaseName(files[FirstUnkeyed(files, Version)])
    ensures |ListJsonFiles(dbDir)| == 1 ==>
              FindLatestSchemaVersion(dbDir).Ok? && FindLatestSchemaVersion(dbDir).value == ListJsonFiles(dbDir)[0]
  {
    var files := ListJsonFiles(dbDir);
    if |files| >= 2 && !AllKeyed(files, Version) {
      FailsAtFirstUnkeyed(files, Version);
    }
  }

  /** Entries whose extension is not `json`, wherever they sit in the listing,
      never change the outcome. */
  lemma {:induction false} NonJsonEntriesIgnored(path: Path, name: string, before: seq<Node>, extra: seq<Node>, after: seq<Node>)
    requires forall i :: 0 <= i < |extra| ==> !IsJson(extra[i].name)
    ensures FindLatestSchemaVersion(Located(path, Dir(name, Some(before + extra + after))))
         == FindLatestSchemaVersion(Located(path, Dir(name, Some(before + after))))
  {
    NonJsonEntriesNotListed(path, name, before, extra, after);
  }
}
